=== FILE: README.md ===
# Leaderboard delta tracker

A model of the leaderboard delta tracker in the Ziqni member sample client. The
sample keeps a process-wide table `prevScores`. It maps each leaderboard id to a
map from rank to the score last pushed at that rank. For every leaderboard push
from the streaming connection, the registered update callback does three things:

1. It creates an empty snapshot for the leaderboard id if there is none.
2. If the push has entries, it logs one line per entry in ascending rank order.
   Each line carries a "changed" marker when the entry's score differs from the
   stored score at that rank. An absent rank counts as 0.0.
3. It clears the snapshot and refills it from the push, walking the push in
   delivery order.

Modules:

- `Ranking` (Ranking.dfy): the entry type and `SortByRank`, the stable sort by
  rank that the callback's stream pipeline performs. It is written as an
  insertion sort and proved to give ascending ranks and a permutation of the
  push, with entries of equal rank left in delivery order.
- `Snapshots` (Snapshots.dfy): the table and the functions that define one push.
  `PutIfAbsent` is the lazy creation at line 76. `PreviousScore` is the
  `getOrDefault(rank, 0.0)` at line 83. `Mark` makes one report line and sets its
  changed marker. `Report` marks every entry of the rank-sorted push (lines
  80-86). `Refill` is the cleared snapshot refilled by one `put` per entry in
  delivery order (lines 89-92). `Apply` combines them into the whole callback
  (lines 74-93): it gives the table and the report after one push. The lemmas
  state the tracker's properties in terms of these functions.
- `Tracker` (Tracker.dfy): the class `LeaderboardTracker`. Its field
  `prevScores` holds the table. Its method `OnLeaderboardUpdate` runs the report
  loop and then the clear-and-refill loop on the field. It is proved to end in
  exactly the state and report that `Apply` gives.

Scores are modelled as `real`. The callback only compares scores for equality and
uses the default 0.0, so exact equality on `real` stands in for `Objects.equals`
on `Double`. The log call becomes a returned sequence of
`ReportLine(rank, score, members, changed)` values. The null check on the entry
list becomes the `Failure(NullEntries)` result.

Two consequences of the code are worth stating:

- An empty push is not a pure no-op. `putIfAbsent` (line 76) runs before the
  emptiness check (line 79), so the first empty push for an unknown id leaves
  an empty snapshot behind (`EmptyPushReportsNothing`).
- On a replay, a line is marked changed iff its score differs from the score of
  the last entry of the push with the same rank (`ReplayMarksIffNotLastScore`).
  So replaying a push marks nothing when its ranks are distinct
  (`ReplayMarksNothing`). When a rank repeats, an earlier entry whose score
  differs from the last entry's is compared against that kept score and is
  marked (`ReplayWithRepeatedRankMarksChange`).

## Model

| member | source | states |
|---|---|---|
| `Tracker.LeaderboardTracker.constructor` | src/main/java/com/ziqni/member/ZiqniMemberSample.java:30 | the table starts with no leaderboard |
| `Tracker.LeaderboardTracker.OnLeaderboardUpdate` | src/main/java/com/ziqni/member/ZiqniMemberSample.java:74-93 | the report loop and the clear-and-refill loop leave the table and return the report exactly as `Apply` of the old table and the push gives them |
| `Ranking.SortByRankIsStableSort` | src/main/java/com/ziqni/member/ZiqniMemberSample.java:80-81 | `SortByRank` gives ascending ranks, the same multiset of entries and length as the push, and the same subsequence of entries for every rank (a stable sort) |
| `Snapshots.PutIfAbsent` | src/main/java/com/ziqni/member/ZiqniMemberSample.java:76 | afterwards the id is present, a missing id maps to an empty snapshot, and every existing snapshot is kept |
| `Snapshots.RefillKeys` | src/main/java/com/ziqni/member/ZiqniMemberSample.java:89-92 | `Refill`, the cleared and refilled snapshot, holds a rank iff some entry of the push has that rank |
| `Snapshots.RefillLastWins` | src/main/java/com/ziqni/member/ZiqniMemberSample.java:90-92 | in `Refill`, the score kept at a rank is that of the last entry with that rank in delivery order |
| `Snapshots.PushReplacesSnapshot` | src/main/java/com/ziqni/member/ZiqniMemberSample.java:89-92 | after a non-empty push, the leaderboard's snapshot holds exactly the ranks of that push, so no rank of an earlier push survives |
| `Snapshots.LastDuplicateWins` | src/main/java/com/ziqni/member/ZiqniMemberSample.java:90-92 | after a push, the snapshot maps each rank to the score of the last entry with that rank in the unsorted push |
| `Snapshots.ChangedAgainstPreviousSnapshot` | src/main/java/com/ziqni/member/ZiqniMemberSample.java:83-84 | in the `Report` of `Apply`, a line (made by `Mark`) is marked changed iff its score differs from the score stored at its rank before the push, with 0.0 for an unknown leaderboard or rank |
| `Snapshots.ReportFollowsRankOrder` | src/main/java/com/ziqni/member/ZiqniMemberSample.java:79-86 | the `Report` of `Apply` has one line per entry, duplicates included, and is in ascending rank order with equal ranks in delivery order |
| `Snapshots.EmptyPushReportsNothing` | src/main/java/com/ziqni/member/ZiqniMemberSample.java:76-79 | an empty push reports nothing, keeps an existing table unchanged, and creates an empty snapshot for an unknown id |
| `Snapshots.MissingEntriesFail` | src/main/java/com/ziqni/member/ZiqniMemberSample.java:76-79 | a push with no entry list fails with the null error, after the snapshot for its id has been created |
| `Snapshots.OtherLeaderboardsUntouched` | src/main/java/com/ziqni/member/ZiqniMemberSample.java:76-92 | a push for one id neither adds, removes nor changes the snapshot of any other id |
| `Snapshots.ReplayKeepsTable` | src/main/java/com/ziqni/member/ZiqniMemberSample.java:89-92 | applying the same push twice leaves the same table as applying it once |
| `Snapshots.ReplayMarksIffNotLastScore` | src/main/java/com/ziqni/member/ZiqniMemberSample.java:83-92 | on a replay every line's rank has a last entry in the push, and the line is marked changed iff its score differs from that last entry's score |
| `Snapshots.ReplayMarksNothing` | src/main/java/com/ziqni/member/ZiqniMemberSample.java:83-92 | replaying a push with distinct ranks marks no report line as changed |
| `Snapshots.ReplayWithRepeatedRankMarksChange` | src/main/java/com/ziqni/member/ZiqniMemberSample.java:80-92 | for the push rank 1 at 10, then rank 1 at 20, replaying marks the first line and not the second |
| `Snapshots.ThreePushScenario` | src/main/java/com/ziqni/member/ZiqniMemberSample.java:74-93 | pushes of rank 1 at 10, at 15, then at 15 again give snapshots {1:10} and {1:15}; the line is marked changed on the first push (against the 0.0 default) and the second, and not on the third |

## Left out

- The header log line `Leaderboard <id> -` written before the snapshot is touched: it depends only on the id and carries no state.
- A null leaderboard payload (it throws at line 75, before `putIfAbsent`, so the table stays unchanged) and null fields inside the SDK's leaderboard types (a null id, a null rank, score or member list): the types belong to the SDK, which is not part of this model. Only a null entry list is modelled.
- `Double` details of `Objects.equals` (NaN equal to itself, 0.0 different from -0.0): scores are exact `real` values.
- Concurrent delivery of callbacks and the thread-safety of the shared `HashMap`: the model applies pushes one at a time.
- The aliasing of the local `map` with the table's entry is modelled by updating the table's entry for the id directly.
- The rest of the sample: connection bring-up and its polling loops, token exchange over HTTP, SDK request chains, event-bus handlers, the second update callback that only logs, and the command-line menu. These are I/O or calls into the SDK, which is not part of this model.

=== FILE: Ranking.dfy ===
/**
 * Leaderboard entries and the order in which the update handler reports them.
 *
 * The handler walks a push through `sorted(Comparator.comparing(getRank))`, a
 * stable sort on the rank alone. SortByRank is that sort, written as an insertion
 * sort; the lemmas below prove what the handler relies on: ascending ranks, every
 * entry kept (duplicates included), and entries of equal rank kept in delivery order.
 */
module Ranking {

  /** One leaderboard entry: its rank, its score and the names of the members at that rank. */
  datatype Entry = Entry(rank: int, score: real, members: seq<string>)

  /** Ranks never decrease from left to right. */
  predicate Ascending(s: seq<Entry>) {
    forall i, j :: 0 <= i < j < |s| ==> s[i].rank <= s[j].rank
  }

  /** The entries of `s` whose rank is `k`, in the order they appear in `s`. */
  function WithRank(s: seq<Entry>, k: int): seq<Entry> {
    if s == [] then []
    else (if s[0].rank == k then [s[0]] else []) + WithRank(s[1..], k)
  }

  /** Puts `x` before the first entry of `s` whose rank is not below its own. */
  function Insert(x: Entry, s: seq<Entry>): seq<Entry> {
    if s == [] || x.rank <= s[0].rank then [x] + s
    else [s[0]] + Insert(x, s[1..])
  }

  /** The push ordered by ascending rank, ties in delivery order. */
  function SortByRank(s: seq<Entry>): seq<Entry> {
    if s == [] then [] else Insert(s[0], SortByRank(s[1..]))
  }

  lemma {:induction false} InsertMultiset(x: Entry, s: seq<Entry>)
    ensures multiset(Insert(x, s)) == multiset{x} + multiset(s)
  {
    if s != [] && s[0].rank < x.rank {
      InsertMultiset(x, s[1..]);
      assert s == [s[0]] + s[1..];
    }
  }

  lemma AscendingCons(a: Entry, r: seq<Entry>)
    requires Ascending(r)
    requires forall e :: e in r ==> a.rank <= e.rank
    ensures Ascending([a] + r)
  {
  }

  lemma {:induction false} InsertAscending(x: Entry, s: seq<Entry>)
    requires Ascending(s)
    ensures Ascending(Insert(x, s))
  {
    if s == [] || x.rank <= s[0].rank {
      forall e | e in s ensures x.rank <= e.rank {
        var k :| 0 <= k < |s| && s[k] == e;
        assert s[0].rank <= s[k].rank;
      }
      AscendingCons(x, s);
    } else {
      var rest := Insert(x, s[1..]);
      assert Ascending(s[1..]) by {
        forall i, j | 0 <= i < j < |s[1..]| ensures s[1..][i].rank <= s[1..][j].rank {
          assert s[1..][i] == s[i + 1] && s[1..][j] == s[j + 1];
        }
      }
      InsertAscending(x, s[1..]);
      InsertMultiset(x, s[1..]);
      forall e | e in rest ensures s[0].rank <= e.rank {
        assert e in multiset(rest);
        if e != x {
          assert e in multiset(s[1..]);
          var k :| 0 <= k < |s[1..]| && s[1..][k] == e;
          assert s[k + 1] == e;
        }
      }
      AscendingCons(s[0], rest);
    }
  }

  lemma {:induction false} WithRankConcat(a: seq<Entry>, b: seq<Entry>, k: int)
    ensures WithRank(a + b, k) == WithRank(a, k) + WithRank(b, k)
  {
    if a != [] {
      assert (a + b)[1..] == a[1..] + b;
      WithRankConcat(a[1..], b, k);
    } else {
      assert a + b == b;
    }
  }

  lemma {:induction false} InsertWithRank(x: Entry, s: seq<Entry>, k: int)
    ensures WithRank(Insert(x, s), k) == (if x.rank == k then [x] else []) + WithRank(s, k)
  {
    if s == [] || x.rank <= s[0].rank {
      WithRankConcat([x], s, k);
    } else {
      InsertWithRank(x, s[1..], k);
      WithRankConcat([s[0]], Insert(x, s[1..]), k);
      WithRankConcat([s[0]], s[1..], k);
      assert s == [s[0]] + s[1..];
    }
  }

  /**
   * The sorted push is in ascending rank order, holds exactly the entries of the
   * push (duplicates included), and keeps entries of equal rank in delivery order.
   */
  lemma {:induction false} SortByRankIsStableSort(s: seq<Entry>)
    ensures Ascending(SortByRank(s))
    ensures multiset(SortByRank(s)) == multiset(s)
    ensures |SortByRank(s)| == |s|
    ensures forall k :: WithRank(SortByRank(s), k) == WithRank(s, k)
  {
    if s != [] {
      SortByRankIsStableSort(s[1..]);
      InsertAscending(s[0], SortByRank(s[1..]));
      InsertMultiset(s[0], SortByRank(s[1..]));
      assert s == [s[0]] + s[1..];
      forall k ensures WithRank(SortByRank(s), k) == WithRank(s, k) {
        InsertWithRank(s[0], SortByRank(s[1..]), k);
      }
    }
    assert |multiset(SortByRank(s))| == |multiset(s)|;
  }
}

=== FILE: Snapshots.dfy ===
/**
 * The per-leaderboard score snapshots and what one leaderboard push does to them.
 *
 * The member sample keeps a process-wide table from leaderboard id to a map from
 * rank to score. On each push for an id it creates that id's map if it is missing,
 * reports every entry in rank order with a "changed" marker computed against the
 * map, then clears the map and refills it from the push in delivery order.
 * Apply states that whole step as a function of the old table and the push; the
 * lemmas after it are the properties the handler gives its readers.
 */
module Snapshots {
  import opened Ranking

  datatype Option<T> = None | Some(value: T)

  datatype Result<T, E> = Success(value: T) | Failure(error: E)

  /** The only failure of the handler: the push carries no entry list at all. */
  datatype Error = NullEntries

  /** A leaderboard push: its id and its entry list, which may be absent (null). */
  datatype Leaderboard = Leaderboard(id: string, entries: Option<seq<Entry>>)

  /** Rank -> last seen score, for one leaderboard. */
  type Scores = map<int, real>

  /** Leaderboard id -> its snapshot. */
  type Table = map<string, Scores>

  /** One report line: rank, score, member names and the changed marker. */
  datatype ReportLine = ReportLine(rank: int, score: real, members: seq<string>, changed: bool)

  /** The table after a push and what the handler reported (or the error it raised). */
  datatype Outcome = Outcome(table: Table, report: Result<seq<ReportLine>, Error>)

  /** The score a rank is compared against when the snapshot has no entry for it. */
  const DefaultScore: real := 0.0

  /** The stored score at `rank`, or DefaultScore when the rank is absent. */
  function PreviousScore(m: Scores, rank: int): real {
    if rank in m then m[rank] else DefaultScore
  }

  /** The report line for `e`, marked changed when its score differs from the stored one. */
  function Mark(m: Scores, e: Entry): ReportLine {
    ReportLine(e.rank, e.score, e.members, e.score != PreviousScore(m, e.rank))
  }

  /** One line per entry of the push, in the order of the rank-sorted push. */
  function Report(m: Scores, es: seq<Entry>): seq<ReportLine> {
    var sorted := SortByRank(es);
    seq(|sorted|, i requires 0 <= i < |sorted| => Mark(m, sorted[i]))
  }

  /** The entry each report line was made from. */
  function Shown(lines: seq<ReportLine>): seq<Entry> {
    seq(|lines|, i requires 0 <= i < |lines| => Entry(lines[i].rank, lines[i].score, lines[i].members))
  }

  /** An emptied snapshot refilled with `put(rank, score)` for each entry in delivery order. */
  function Refill(es: seq<Entry>): Scores {
    if es == [] then map[]
    else Refill(es[..|es| - 1])[es[|es| - 1].rank := es[|es| - 1].score]
  }

  /** `putIfAbsent(id, new HashMap<>())`. */
  function PutIfAbsent(t: Table, id: string): (r: Table)
    ensures id in r && r.Keys == t.Keys + {id}
    ensures id !in t ==> r[id] == map[]
    ensures forall other :: other in t ==> r[other] == t[other]
  {
    if id in t then t else t[id := map[]]
  }

  /** One leaderboard push, as the update handler performs it. */
  function Apply(t: Table, lb: Leaderboard): Outcome {
    var t1 := PutIfAbsent(t, lb.id);
    match lb.entries
    case None => Outcome(t1, Failure(NullEntries))
    case Some(es) =>
      if |es| == 0 then Outcome(t1, Success([]))
      else Outcome(t1[lb.id := Refill(es)], Success(Report(t1[lb.id], es)))
  }

  /** All ranks of a push are different. */
  predicate DistinctRanks(es: seq<Entry>) {
    forall i, j :: 0 <= i < j < |es| ==> es[i].rank != es[j].rank
  }

  // ---------------------------------------------------------------------------
  // The refill

  /** A refilled snapshot holds exactly the ranks that occur in the push. */
  lemma {:induction false} RefillKeys(es: seq<Entry>)
    ensures forall k :: k in Refill(es) <==> exists j :: 0 <= j < |es| && es[j].rank == k
  {
    if es != [] {
      var init := es[..|es| - 1];
      RefillKeys(init);
      forall k | k in Refill(es) ensures exists j :: 0 <= j < |es| && es[j].rank == k {
        if k != es[|es| - 1].rank {
          assert k in Refill(init);
          var j :| 0 <= j < |init| && init[j].rank == k;
          assert es[j] == init[j];
        }
      }
      forall k | exists j :: 0 <= j < |es| && es[j].rank == k ensures k in Refill(es) {
        var j :| 0 <= j < |es| && es[j].rank == k;
        if j < |es| - 1 { assert init[j] == es[j]; }
      }
    }
  }

  /** The score kept for a rank is that of the last entry with that rank in delivery order. */
  lemma {:induction false} RefillLastWins(es: seq<Entry>, j: int)
    requires 0 <= j < |es|
    requires forall j' :: j < j' < |es| ==> es[j'].rank != es[j].rank
    ensures es[j].rank in Refill(es) && Refill(es)[es[j].rank] == es[j].score
  {
    if j < |es| - 1 {
      var init := es[..|es| - 1];
      assert init[j] == es[j];
      forall j' | j < j' < |init| ensures init[j'].rank != init[j].rank {
        assert init[j'] == es[j'];
      }
      RefillLastWins(init, j);
    }
  }

  // ---------------------------------------------------------------------------
  // Properties of one push

  /** After a non-empty push the snapshot holds exactly that push's ranks: no earlier rank survives. */
  lemma PushReplacesSnapshot(t: Table, lb: Leaderboard)
    requires lb.entries.Some? && |lb.entries.value| > 0
    ensures lb.id in Apply(t, lb).table
    ensures forall k :: k in Apply(t, lb).table[lb.id] <==>
      exists j :: 0 <= j < |lb.entries.value| && lb.entries.value[j].rank == k
  {
    RefillKeys(lb.entries.value);
  }

  /** A rank that occurs more than once keeps the score of its last entry in delivery order. */
  lemma LastDuplicateWins(t: Table, lb: Leaderboard, j: int)
    requires lb.entries.Some? && 0 <= j < |lb.entries.value|
    requires forall j' :: j < j' < |lb.entries.value| ==> lb.entries.value[j'].rank != lb.entries.value[j].rank
    ensures lb.id in Apply(t, lb).table && lb.entries.value[j].rank in Apply(t, lb).table[lb.id]
    ensures Apply(t, lb).table[lb.id][lb.entries.value[j].rank] == lb.entries.value[j].score
  {
    RefillLastWins(lb.entries.value, j);
  }

  /**
   * A line is marked changed iff its score differs from the score stored at its rank
   * before this push (0.0 when the leaderboard or the rank had no stored score).
   */
  lemma ChangedAgainstPreviousSnapshot(t: Table, lb: Leaderboard)
    requires lb.entries.Some?
    ensures Apply(t, lb).report.Success?
    ensures forall line :: line in Apply(t, lb).report.value ==>
      (line.changed <==>
        line.score != (if lb.id in t && line.rank in t[lb.id] then t[lb.id][line.rank] else 0.0))
  {
  }

  /**
   * The report has one line per entry, duplicates included, in ascending rank
   * order, with entries of equal rank in delivery order.
   */
  lemma ReportFollowsRankOrder(t: Table, lb: Leaderboard)
    requires lb.entries.Some?
    ensures Apply(t, lb).report.Success?
    ensures |Apply(t, lb).report.value| == |lb.entries.value|
    ensures Ascending(Shown(Apply(t, lb).report.value))
    ensures multiset(Shown(Apply(t, lb).report.value)) == multiset(lb.entries.value)
    ensures forall k :: WithRank(Shown(Apply(t, lb).report.value), k) == WithRank(lb.entries.value, k)
  {
    var es := lb.entries.value;
    SortByRankIsStableSort(es);
    if |es| > 0 {
      var m := PutIfAbsent(t, lb.id)[lb.id];
      assert Shown(Report(m, es)) == SortByRank(es);
    }
  }

  /**
   * An empty push reports nothing and leaves an existing snapshot as it was; a
   * leaderboard seen for the first time now has an empty snapshot.
   */
  lemma EmptyPushReportsNothing(t: Table, id: string)
    ensures Apply(t, Leaderboard(id, Some([]))).report == Success([])
    ensures id in t ==> Apply(t, Leaderboard(id, Some([]))).table == t
    ensures id !in t ==> Apply(t, Leaderboard(id, Some([]))).table == t[id := map[]]
  {
  }

  /** A push without an entry list fails, after the snapshot for its id has been created. */
  lemma MissingEntriesFail(t: Table, id: string)
    ensures Apply(t, Leaderboard(id, None)).report == Failure(NullEntries)
    ensures id in t ==> Apply(t, Leaderboard(id, None)).table == t
    ensures id !in t ==> Apply(t, Leaderboard(id, None)).table == t[id := map[]]
  {
  }

  /** A push for one leaderboard leaves every other leaderboard's snapshot untouched. */
  lemma OtherLeaderboardsUntouched(t: Table, lb: Leaderboard, other: string)
    requires other != lb.id
    ensures other in Apply(t, lb).table <==> other in t
    ensures other in t ==> Apply(t, lb).table[other] == t[other]
  {
  }

  /** Applying the same push twice leaves the same table as applying it once. */
  lemma ReplayKeepsTable(t: Table, lb: Leaderboard)
    ensures Apply(Apply(t, lb).table, lb).table == Apply(t, lb).table
  {
  }

  /** Entry `j` is the last entry of the push with its rank. */
  predicate LastOfRank(es: seq<Entry>, j: int) {
    0 <= j < |es| && forall j' :: j < j' < |es| ==> es[j'].rank != es[j].rank
  }

  /** Some entry of the push is the last one with rank `k`. */
  predicate HasLastOfRank(es: seq<Entry>, k: int) {
    exists l :: 0 <= l < |es| && LastOfRank(es, l) && es[l].rank == k
  }

  /** Every rank that occurs in a push has a last entry with that rank. */
  lemma {:induction false} LastOfRankExists(es: seq<Entry>, j: int)
    requires 0 <= j < |es|
    ensures HasLastOfRank(es, es[j].rank)
  {
    var n := |es| - 1;
    if es[n].rank == es[j].rank {
      assert LastOfRank(es, n);
    } else {
      var init := es[..n];
      assert init[j] == es[j];
      LastOfRankExists(init, j);
      var l :| 0 <= l < |init| && LastOfRank(init, l) && init[l].rank == es[j].rank;
      assert es[l] == init[l];
      forall j' | l < j' < |es| ensures es[j'].rank != es[l].rank {
        if j' < n { assert init[j'] == es[j']; }
      }
      assert LastOfRank(es, l);
    }
  }

  /**
   * On a replay, every line's rank has a last entry in the push, and the line is
   * marked changed iff its score differs from the score of that last entry.
   */
  lemma {:induction false} ReplayMarksIffNotLastScore(t: Table, lb: Leaderboard)
    requires lb.entries.Some?
    ensures Apply(Apply(t, lb).table, lb).report.Success?
    ensures var lines := Apply(Apply(t, lb).table, lb).report.value;
      forall i :: 0 <= i < |lines| ==> HasLastOfRank(lb.entries.value, lines[i].rank)
    ensures var lines := Apply(Apply(t, lb).table, lb).report.value;
      forall i, l :: 0 <= i < |lines| && LastOfRank(lb.entries.value, l) && lb.entries.value[l].rank == lines[i].rank ==>
        (lines[i].changed <==> lines[i].score != lb.entries.value[l].score)
  {
    var es := lb.entries.value;
    if |es| > 0 {
      var t1 := Apply(t, lb).table;
      var lines := Apply(t1, lb).report.value;
      assert t1[lb.id] == Refill(es);
      assert lines == Report(Refill(es), es);
      SortByRankIsStableSort(es);
      var sorted := SortByRank(es);
      forall i | 0 <= i < |lines| ensures HasLastOfRank(es, lines[i].rank) {
        assert sorted[i] in multiset(es);
        var j :| 0 <= j < |es| && es[j] == sorted[i];
        assert lines[i].rank == es[j].rank;
        LastOfRankExists(es, j);
      }
      forall i, l | 0 <= i < |lines| && LastOfRank(es, l) && es[l].rank == lines[i].rank
        ensures lines[i].changed <==> lines[i].score != es[l].score
      {
        RefillLastWins(es, l);
      }
    }
  }

  /** Replaying a push whose ranks are all different marks no line as changed. */
  lemma {:induction false} ReplayMarksNothing(t: Table, lb: Leaderboard)
    requires lb.entries.Some? && DistinctRanks(lb.entries.value)
    ensures Apply(Apply(t, lb).table, lb).report.Success?
    ensures forall line :: line in Apply(Apply(t, lb).table, lb).report.value ==> !line.changed
  {
    var es := lb.entries.value;
    ReplayMarksIffNotLastScore(t, lb);
    if |es| > 0 {
      var lines := Apply(Apply(t, lb).table, lb).report.value;
      assert lines == Report(Refill(es), es);
      SortByRankIsStableSort(es);
      var sorted := SortByRank(es);
      forall line | line in lines ensures !line.changed {
        var i :| 0 <= i < |lines| && lines[i] == line;
        assert sorted[i] in multiset(es);
        var j :| 0 <= j < |es| && es[j] == sorted[i];
        assert LastOfRank(es, j);
      }
    }
  }

  /**
   * For the push rank 1 at 10, then rank 1 at 20, replaying marks the first line:
   * both lines are compared against 20, the score kept for rank 1.
   */
  lemma ReplayWithRepeatedRankMarksChange()
    ensures var lb := Leaderboard("L", Some([Entry(1, 10.0, ["Ann"]), Entry(1, 20.0, ["Bob"])]));
      var again := Apply(Apply(map[], lb).table, lb).report;
      again.Success? && |again.value| == 2 && again.value[0].changed && !again.value[1].changed
  {
  }

  /**
   * The three pushes for leaderboard "L1": rank 1 at 10, then at 15, then at 15 again.
   * The first push marks rank 1 as changed against the 0.0 default, the second
   * against the stored 10, and the third marks nothing.
   */
  lemma ThreePushScenario()
    ensures var p1 := Leaderboard("L1", Some([Entry(1, 10.0, ["Bob"])]));
      var p2 := Leaderboard("L1", Some([Entry(1, 15.0, ["Bob"])]));
      var o1 := Apply(map[], p1);
      var o2 := Apply(o1.table, p2);
      var o3 := Apply(o2.table, p2);
      && o1.table == map["L1" := map[1 := 10.0]]
      && o1.report == Success([ReportLine(1, 10.0, ["Bob"], true)])
      && o2.table == map["L1" := map[1 := 15.0]]
      && o2.report == Success([ReportLine(1, 15.0, ["Bob"], true)])
      && o3.table == o2.table
      && o3.report == Success([ReportLine(1, 15.0, ["Bob"], false)])
  {
    var e1, e2 := Entry(1, 10.0, ["Bob"]), Entry(1, 15.0, ["Bob"]);
    var p1, p2 := Leaderboard("L1", Some([e1])), Leaderboard("L1", Some([e2]));
    assert [e1][..0] == [] && [e2][..0] == [];
    assert Refill([e1]) == map[1 := 10.0];
    assert Refill([e2]) == map[1 := 15.0];
    assert SortByRank([e1]) == [e1];
    assert SortByRank([e2]) == [e2];
    assert Report(map[], [e1]) == [ReportLine(1, 10.0, ["Bob"], true)];
    var o1 := Apply(map[], p1);
    assert o1.table == map["L1" := map[1 := 10.0]];
    var o2 := Apply(o1.table, p2);
    assert o2.table == map["L1" := map[1 := 15.0]];
    assert Report(map[1 := 10.0], [e2]) == [ReportLine(1, 15.0, ["Bob"], true)];
    assert Report(map[1 := 15.0], [e2]) == [ReportLine(1, 15.0, ["Bob"], false)];
  }
}

=== FILE: Tracker.dfy ===
/**
 * The member sample's leaderboard delta tracker: the process-wide `prevScores`
 * table and the success callback registered for leaderboard updates.
 */
module Tracker {
  import opened Ranking
  import opened Snapshots

  class LeaderboardTracker {
    /** Leaderboard id -> (rank -> score last pushed at that rank). */
    var prevScores: Table

    constructor ()
      ensures prevScores == map[]
    {
      prevScores := map[];
    }

    /**
     * Handles one leaderboard push: returns the lines it logs (or the null-list
     * failure) and leaves `prevScores` as Apply describes.
     */
    method OnLeaderboardUpdate(lb: Leaderboard) returns (report: Result<seq<ReportLine>, Error>)
      modifies this
      ensures Outcome(prevScores, report) == Apply(old(prevScores), lb)
    {
      if lb.id !in prevScores {
        prevScores := prevScores[lb.id := map[]];
      }
      var before := prevScores;
      if lb.entries.None? {
        return Failure(NullEntries);
      }
      var es := lb.entries.value;
      if |es| == 0 {
        return Success([]);
      }

      // Report pass: the push in rank order, each entry against the stored score.
      var sorted := SortByRank(es);
      var lines: seq<ReportLine> := [];
      var i := 0;
      while i < |sorted|
        invariant 0 <= i <= |sorted|
        invariant |lines| == i
        invariant forall k :: 0 <= k < i ==> lines[k] == Mark(before[lb.id], sorted[k])
      {
        lines := lines + [Mark(prevScores[lb.id], sorted[i])];
        i := i + 1;
      }

      // Clear the snapshot, then put every entry back in delivery order.
      prevScores := prevScores[lb.id := map[]];
      var j := 0;
      while j < |es|
        invariant 0 <= j <= |es|
        invariant prevScores == before[lb.id := Refill(es[..j])]
      {
        assert es[..j + 1][..j] == es[..j];
        prevScores := prevScores[lb.id := prevScores[lb.id][es[j].rank := es[j].score]];
        j := j + 1;
      }
      assert es[..|es|] == es;
      assert lines == Report(before[lb.id], es);
      report := Success(lines);
    }
  }

  /**
   * Three pushes for leaderboard "L1" (rank 1 at 10, at 15, at 15 again), driven
   * through the tracker: the method's contract composes across successive calls.
   */
  method ThreePushClient() {
    var tracker := new LeaderboardTracker();
    var p1 := Leaderboard("L1", Some([Entry(1, 10.0, ["Bob"])]));
    var p2 := Leaderboard("L1", Some([Entry(1, 15.0, ["Bob"])]));
    ThreePushScenario();
    var r1 := tracker.OnLeaderboardUpdate(p1);
    assert r1 == Success([ReportLine(1, 10.0, ["Bob"], true)]);
    assert tracker.prevScores == map["L1" := map[1 := 10.0]];
    var r2 := tracker.OnLeaderboardUpdate(p2);
    assert r2 == Success([ReportLine(1, 15.0, ["Bob"], true)]);
    var r3 := tracker.OnLeaderboardUpdate(p2);
    assert r3 == Success([ReportLine(1, 15.0, ["Bob"], false)]);
  }
}
